=== FILE: README.md ===
# Streaming chat turn, input box and profile-image dialog

This is a Dafny model of the logic in a browser chat client. It has three parts.

- **The chat turn** (`handleSendMessage` in `src/components/chat/ChatWindow.tsx`), in `chat_window.dfy`.
  - The submitted message is appended to the transcript and the loading flag is raised.
  - The request carries the earlier transcript as its history.
  - The streamed reply is read one chunk at a time. Each chunk is split on line feeds on its own.
  - Every line starting with `data: ` contributes its remainder to a running text. That text is written into the transcript's trailing assistant message. If the last message is not an assistant message, a new one holding the line's payload is pushed.
  - Any failure (a rejected fetch, a non-ok status, a missing body, or a failing read) collapses the reply to the fixed text "Sorry, there was an error. Please try again.".
  - The loading flag is cleared on every exit. A fetch or read that never settles never exits, and is not modelled.
- **The input box** (`ChatInput.tsx`), in `chat_input.dfy`.
  - JavaScript's `trim`, with its full white-space set.
  - The submit handler: a message is sent only when the trimmed text is non-empty, and the field is then cleared.
  - The Send button's `disabled` predicate.
- **The profile-image dialog** (`components/profile-image-selector.tsx`), in `profile_image_selector.dfy`.
  - The file check: the MIME type must start with `image/` and the size must be at most 5 MiB.
  - The dialog as a state machine over the open flag, the preview and the committed image held by the owner.

Supporting modules:
- `transcript.dfy`: messages, roles, the error text and the one update shape both updaters share (`UpsertAssistant`).
- `strings.dfy`: `startsWith`, `split` on one character, `join`, concatenation.
- `wrappers.dfy`: `Option`.

The transport is abstracted away. A `Response` is either a rejected fetch or a status flag plus an optional body. A body is a sequence of already-decoded chunks plus whether a read fails after them. The React state updates the handler queues are applied in the order they are issued, with value semantics.

What the code does not do, and the model therefore does not do either:
- **It keeps no line buffer between reads.** Nothing is carried from one read to the next. `SplitDataLineIsTruncated` shows a data line split across two reads losing its tail. `ChunkingHarmlessAtLineEnds` shows reads that end at line ends lose nothing.
- **Messages carry no open/closed flag, and there is no step that closes a reply.** The handler simply stops writing when the stream ends.
- **Nothing guards against a second submission while loading.** `HandleSendMessage` never reads the flag, and `SubmitForm` does not consult it. `OverlappingTurnsShareTheTranscript` shows two overlapping turns sharing one transcript.
- **The error path does not distinguish "a reply was started" from "no reply yet".** It overwrites a trailing assistant message or pushes a new one. For a turn started from the input box, both give the same transcript (`TurnOutcome`).

## Model

| member | source | states |
|---|---|---|
| ChatWindow.LinePayload | src/components/chat/ChatWindow.tsx:78-80 | A line yields a payload iff it starts with exactly `data: `; prefix plus payload gives back the line |
| ChatWindow.PrefixNeedsTheSpace | src/components/chat/ChatWindow.tsx:79 | `data:` followed by anything but a space is not a data line |
| ChatWindow.Submit | src/components/chat/ChatWindow.tsx:46-48 | The submitted message becomes the new last element, earlier messages are unchanged, loading is raised |
| ChatWindow.Step | src/components/chat/ChatWindow.tsx:78-97 | One line: only the last index is rewritten or one assistant message pushed; the running text grows by the payload; a shown running text stays shown; non-data lines change nothing; a data line leaves a trailing assistant message holding the whole running text, or pushes one holding just this line's payload |
| ChatWindow.AdvancesCompose | src/components/chat/ChatWindow.tsx:71-98 | Applying two runs of payloads in sequence is applying their concatenation |
| ChatWindow.ProcessLines | src/components/chat/ChatWindow.tsx:76-98 | The lines of one chunk in order: running text grows by the concatenated payloads, at most one message is pushed, a non-assistant last message is never overwritten; the last message shows the whole running text once two data lines were applied or when it was already an assistant message, so after a second submission the late reply repeats text shown before it; a single data line after a non-assistant message pushes just its payload |
| ChatWindow.ProcessChunks | src/components/chat/ChatWindow.tsx:71-99 | The chunks in arrival order, each split alone: same guarantees over all payloads of all chunks, including the whole running text in the last message after two or more payloads and just the payload after a single one pushed past a non-assistant message; loading untouched |
| ChatWindow.Fail | src/components/chat/ChatWindow.tsx:105-121 | The error collapse: the last message becomes the assistant error text; partial text is replaced, not extended; at most one message is added |
| ChatWindow.Settle | src/components/chat/ChatWindow.tsx:122-124 | The finally block clears loading and leaves the transcript alone |
| ChatWindow.Answer | src/components/chat/ChatWindow.tsx:50-121 | The try/catch part: a last message that is not an assistant message is never overwritten, so the submitted message stays; every failure kind ends with the error text last; a successful stream with payloads ends with their concatenation last; a successful stream without data lines changes nothing |
| ChatWindow.HandleSendMessage | src/components/chat/ChatWindow.tsx:46-125 | For any message: the request carries the fixed prefix, the message text and the transcript before submission as history; loading ends false, earlier messages untouched, one or two messages added, last message is the error text on failure or the whole reply on success, and a silent successful stream adds only the message |
| ChatWindow.AdvancesKeepsTurnShape | src/components/chat/ChatWindow.tsx:69-96 | Within a turn, the transcript is the prefix up to the user message plus zero assistant messages before any payload and exactly one holding all payloads after |
| ChatWindow.LinesKeepTurnShape | src/components/chat/ChatWindow.tsx:78-96 | That turn shape holds after every line, even for empty payloads |
| ChatWindow.ChunksKeepTurnShape | src/components/chat/ChatWindow.tsx:71-96 | That turn shape holds after every read |
| ChatWindow.FailKeepsTurnShape | src/components/chat/ChatWindow.tsx:100-121 | A failure at any point of a turn leaves exactly one assistant message, the error text, after the user message |
| ChatWindow.TurnOutcome | src/components/chat/ChatWindow.tsx:46-125 | A user turn's final transcript is prior + user message + expected reply (none, all payloads, or error text); loading false; the request history equals the transcript before the user message |
| ChatWindow.LinePayloadsAppend | src/components/chat/ChatWindow.tsx:78 | Classifying lines distributes over concatenating line lists |
| ChatWindow.ChunkingHarmlessAtLineEnds | src/components/chat/ChatWindow.tsx:71-80 | When every read but the last ends with a line feed, the payloads equal those of the whole body split at once |
| ChatWindow.OneLineChunk | src/components/chat/ChatWindow.tsx:75-76 | A read without a line feed is one line |
| ChatWindow.OneDataLineRead | src/components/chat/ChatWindow.tsx:75-81 | A read holding one data line yields its payload |
| ChatWindow.SplitDataLineIsTruncated | src/components/chat/ChatWindow.tsx:71-96 | A data line split across two reads keeps only the head, while one read gives head and tail |
| ChatWindow.SplitReadReply | src/components/chat/ChatWindow.tsx:71-96 | The reply for a data line split across two reads is its head |
| ChatWindow.WholeReadReply | src/components/chat/ChatWindow.tsx:71-96 | The reply for a data line read whole is its payload |
| ChatWindow.EmptyPayloadOpensReply | src/components/chat/ChatWindow.tsx:79-94 | A bare `data: ` line still pushes an (empty) assistant message |
| ChatWindow.FailureCollapsesPartialReply | src/components/chat/ChatWindow.tsx:100-121 | A failing read after any streamed content leaves only the error text as the reply, and loading false |
| ChatWindow.OverlappingTurnsShareTheTranscript | src/components/chat/ChatWindow.tsx:46-125 | A second submission is accepted while loading; the first turn then pushes its late payload after the second question, clears loading early, and the second turn overwrites it |
| ChatWindow.SubmitForm | src/components/chat/ChatInput.tsx:11-17 | Submitting the form: white-space-only text changes nothing; otherwise the field clears and the transcript gains the trimmed user message and its reply |
| Transcript.UpsertAssistant | src/components/chat/ChatWindow.tsx:84-95 | Overwrite the last assistant message or push one: ends with an assistant message, nothing before the last index changes, at most one added |
| Strings.StartsWith | src/components/chat/ChatWindow.tsx:79 | JavaScript `startsWith`: the prefix is no longer than the string and equals its first characters |
| Strings.Split | src/components/chat/ChatWindow.tsx:76 | `split("\n")`: at least one piece, no piece contains the separator |
| Strings.JoinSplit | src/components/chat/ChatWindow.tsx:76 | Joining the pieces of a split gives the input back |
| Strings.SplitJoin | src/components/chat/ChatWindow.tsx:76 | Splitting a join of separator-free pieces gives the pieces back |
| Strings.SplitWithoutSeparator | src/components/chat/ChatWindow.tsx:76 | A separator-free string is one piece |
| Strings.SplitAroundSeparator | src/components/chat/ChatWindow.tsx:76 | Splitting `a + sep + b` is splitting `a` and `b` separately |
| Strings.ConcatAppend | src/components/chat/ChatWindow.tsx:81 | The running text of two payload runs is the concatenation of each run's text |
| ChatInput.IsWhiteSpace | src/components/chat/ChatInput.tsx:13 | The characters `trim()` removes: the ECMAScript WhiteSpace and LineTerminator sets |
| ChatInput.StartIndex | src/components/chat/ChatInput.tsx:13 | Where the trimmed text starts: everything skipped is white space and the character there is not |
| ChatInput.EndIndex | src/components/chat/ChatInput.tsx:13 | Where the trimmed text ends: everything dropped is white space and the character before is not |
| ChatInput.Trim | src/components/chat/ChatInput.tsx:13 | `trim()`: a slice of the input with only white space around it and none at its ends; empty iff the input is all white space |
| ChatInput.TrimmedIsFixed | src/components/chat/ChatInput.tsx:13 | Text without white space at its ends is unchanged by trimming |
| ChatInput.TrimIdempotent | src/components/chat/ChatInput.tsx:13-14 | Trimming twice is trimming once |
| ChatInput.HandleSubmit | src/components/chat/ChatInput.tsx:11-17 | White-space-only text is never sent and the field keeps it; otherwise the trimmed, non-empty text is sent with role user and the field is cleared |
| ChatInput.SendDisabled | src/components/chat/ChatInput.tsx:45 | The Send button is disabled when the trimmed text is empty |
| ChatInput.SendButtonMatchesSubmit | src/components/chat/ChatInput.tsx:45 | The Send button is disabled iff a submit would send nothing, i.e. iff the text is all white space |
| ProfileImageSelector.CheckFile | components/profile-image-selector.tsx:25-35 | Accepted iff the MIME type starts with `image/` and size is at most 5 MiB; a non-image is reported as such whatever its size |
| ProfileImageSelector.SizeLimitBoundary | components/profile-image-selector.tsx:32-35 | Exactly 5,242,880 bytes passes; one byte more is rejected |
| ProfileImageSelector.Mount | components/profile-image-selector.tsx:16-18 | The dialog starts closed with the preview equal to the committed image |
| ProfileImageSelector.OwnerSetsImage | components/profile-image-selector.tsx:16-18 | A later committed image from the owner does not change the preview |
| ProfileImageSelector.ChooseFiles | components/profile-image-selector.tsx:21-43 | Only an accepted first file changes the preview, to its read result; no file or a rejected file changes nothing; committed image and open flag never change |
| ProfileImageSelector.Save | components/profile-image-selector.tsx:45-48 | The preview is committed and the dialog closes |
| ProfileImageSelector.Remove | components/profile-image-selector.tsx:50-55 | The preview is cleared without committing |
| ProfileImageSelector.SetOpen | components/profile-image-selector.tsx:58 | Opening or closing (including Cancel) changes neither preview nor committed image |
| ProfileImageSelector.CommittedOnlyBySave | components/profile-image-selector.tsx:45-55 | Any sequence of events without Save leaves the committed image unchanged |
| ProfileImageSelector.CommittedIsLastSavedPreview | components/profile-image-selector.tsx:45-48 | After any event sequence, the committed image is the preview as it stood at the last Save |
| ProfileImageSelector.CancelKeepsUncommittedPreview | components/profile-image-selector.tsx:104-107 | While the selector stays mounted, Cancel after an upload keeps the uncommitted preview for the next opening and commits nothing |
| ProfileImageSelector.RemoveShown | components/profile-image-selector.tsx:72-97 | The Remove button is rendered only while the dialog is open and the preview is a non-empty string |
| ProfileImageSelector.RemoveButtonVisibility | components/profile-image-selector.tsx:17-92 | The Remove button is hidden at first render (the dialog is closed), shows when the dialog is first opened iff the committed image is non-empty, appears after an accepted file with a non-empty read result, and disappears once clicked |
| ProfileImageSelector.SaveAfterOwnerUpdateRestoresMountedImage | components/profile-image-selector.tsx:16-48 | If the owner changes the image after the first render, Save commits the preview from mount time |

## Left out

- A `fetch` or `reader.read()` that never settles is not modelled: the code has no timeout. While it hangs, the window stays in the state `ProcessChunks` leaves after the chunks so far, with loading still true, and the `finally` block never runs.
- `fetch`, `ReadableStream.getReader` and `TextDecoder` are abstracted to the `Response` and `Body` datatypes. Bytes, multi-byte characters split across reads, and decoder state are not modelled. Chunks arrive as decoded text.
- The JSON serialisation of the request, its URL and headers, and `console.error` are left out. The request is kept as a `Request` value (prefix, message, history).
- React's asynchronous scheduling of state updates is not modelled. Queued updaters are applied in issue order. The in-place mutation of the previous message object (line 91) is treated as a value update. The overwrite updater reads the running text `newMessageContent` when React runs it, not when it is queued. The model applies each updater at once, with the running text at that moment. For a single turn the final transcript is the same either way: every later updater writes a running text that extends the earlier one, and the last one to run writes the whole text.
- The window state between two updates is not modelled, so intermediate renders are not either. `loading` is stated at submit, during the stream (`ProcessChunks` leaves it untouched) and at the end.
- Line terminators other than `\n` are not modelled. A `\r` before `\n` stays in the payload, as it does in the code.
- `handleTrain`, `handleUpload`, `handleChange` and `handleClose` in ChatWindow.tsx are left out: network calls through axios, and snackbar state.
- The scroll effect and all JSX and styling are left out.
- `app/page.tsx` is not part of this model. It wraps a hook from an external library and uses localStorage. It appears only as the owner that may set a new committed image (`OwnerSetsImage`).
- `ChatMessage.tsx` is presentation only and is not part of this model.
- In the profile dialog, `FileReader` is asynchronous. Its result is taken as an opaque string that arrives at once. `alert` is not modelled. Clearing the hidden file input's value on Remove is DOM state and is left out.
- Events are not restricted by what is rendered. `RemoveShown` and `RemoveButtonVisibility` state when the Remove button is rendered, but `Run` accepts a `RemoveClicked` at any time. Clicking Remove while it is hidden is impossible in the page but harmless in the model.
- ProfileImageSelector.CancelKeepsUncommittedPreview: holds only while the selector stays mounted. The page renders it inside a dropdown menu, and unmounting and remounting starts again from `Mount` with the committed image. Mounting is not modelled beyond `Mount`.
- ChatWindow.HandleSendMessage: when a reply arrives (data lines or a failure), its own contract pins the last message but not the whole transcript. A message with the assistant role would be overwritten by the first data line or by the error text. The exact shape is stated in `TurnOutcome` for user messages, the only kind the input box sends.

=== FILE: chat_input.dfy ===
/**
  The message input box of the chat window: a text field whose submit
  handler sends the trimmed text as a user message and clears the field, and
  a Send button that is disabled while the trimmed text is empty.
 */
module ChatInput {

  import opened Wrappers
  import opened Transcript

  /**
    The characters JavaScript's `String.prototype.trim` removes: the
    ECMAScript WhiteSpace set (tab, vertical tab, form feed, space, no-break
    space, byte order mark and the Unicode space separators) together with
    the LineTerminator set (line feed, carriage return, line and paragraph
    separators).
   */
  predicate IsWhiteSpace(c: char) {
    || c == '\t' || c == '\n' || c == '\U{000B}' || c == '\U{000C}' || c == '\r'
    || c == ' ' || c == '\U{00A0}' || c == '\U{1680}'
    || ('\U{2000}' <= c <= '\U{200A}')
    || c == '\U{2028}' || c == '\U{2029}' || c == '\U{202F}' || c == '\U{205F}'
    || c == '\U{3000}' || c == '\U{FEFF}'
  }

  predicate AllWhiteSpace(s: string) {
    forall k :: 0 <= k < |s| ==> IsWhiteSpace(s[k])
  }

  /** No white space at either end. */
  predicate Trimmed(s: string) {
    s == [] || (!IsWhiteSpace(s[0]) && !IsWhiteSpace(s[|s| - 1]))
  }

  /**
    The index of the first character at or after `i` that is not white
    space (`|s|` if there is none): where `trim` starts its result.
   */
  function StartIndex(s: string, i: nat): (j: nat)
    requires i <= |s|
    ensures i <= j <= |s|
    ensures forall k :: i <= k < j ==> IsWhiteSpace(s[k])
    ensures j == |s| || !IsWhiteSpace(s[j])
    decreases |s| - i
  {
    if i < |s| && IsWhiteSpace(s[i]) then StartIndex(s, i + 1) else i
  }

  /**
    The index just past the last character before `hi` that is not white
    space, but no lower than `lo`: where `trim` ends its result.
   */
  function EndIndex(s: string, lo: nat, hi: nat): (j: nat)
    requires lo <= hi <= |s|
    ensures lo <= j <= hi
    ensures forall k :: j <= k < hi ==> IsWhiteSpace(s[k])
    ensures j == lo || !IsWhiteSpace(s[j - 1])
    decreases hi - lo
  {
    if lo < hi && IsWhiteSpace(s[hi - 1]) then EndIndex(s, lo, hi - 1) else hi
  }

  /**
    `s.trim()`: the slice of `s` left after removing white space at both
    ends. It is empty exactly when `s` is all white space.
   */
  function Trim(s: string): (r: string)
    ensures Trimmed(r)
    ensures r == [] <==> AllWhiteSpace(s)
    ensures exists i :: 0 <= i <= |s| - |r| && r == s[i..i + |r|] && AllWhiteSpace(s[..i]) && AllWhiteSpace(s[i + |r|..])
  {
    var i := StartIndex(s, 0);
    var j := EndIndex(s, i, |s|);
    SliceBetweenSpace(s, i, j);
    s[i..j]
  }

  /**
    Cutting `s` at `i` and `j`, with white space before `i` and from `j` on,
    and non-white-space characters at both ends of the cut when it is not
    empty, gives a trimmed slice that is empty exactly when `s` is all
    white space.
   */
  lemma SliceBetweenSpace(s: string, i: nat, j: nat)
    requires i <= j <= |s|
    requires forall k :: 0 <= k < i ==> IsWhiteSpace(s[k])
    requires forall k :: j <= k < |s| ==> IsWhiteSpace(s[k])
    requires i == |s| || !IsWhiteSpace(s[i])
    requires j == i || !IsWhiteSpace(s[j - 1])
    ensures Trimmed(s[i..j])
    ensures s[i..j] == [] <==> AllWhiteSpace(s)
    ensures AllWhiteSpace(s[..i]) && AllWhiteSpace(s[j..])
  {
    if i < j {
      assert s[i..j][0] == s[i] && s[i..j][j - i - 1] == s[j - 1];
    }
    assert forall k :: 0 <= k < i ==> s[..i][k] == s[k];
    assert forall k :: 0 <= k < |s| - j ==> s[j..][k] == s[j + k];
  }

  /** Trimming a trimmed string changes nothing, so `trim` is idempotent. */
  lemma TrimmedIsFixed(s: string)
    requires Trimmed(s)
    ensures Trim(s) == s
  {
    assert StartIndex(s, 0) == 0;
    assert EndIndex(s, 0, |s|) == |s|;
    assert s[0..|s|] == s;
  }

  lemma TrimIdempotent(s: string)
    ensures Trim(Trim(s)) == Trim(s)
  {
    TrimmedIsFixed(Trim(s));
  }

  /** What a submit leaves behind: the new field text and the message sent, if any. */
  datatype Submission = Submission(field: string, sent: Option<Message>)

  /** The Send button's `disabled` property. */
  predicate SendDisabled(field: string) {
    Trim(field) == []
  }

  /**
    The form's submit handler. Text whose trimmed form is empty is never
    sent and the field keeps its text; otherwise the trimmed text is sent as
    a user message and the field is cleared.
   */
  function HandleSubmit(field: string): (r: Submission)
    ensures r.sent.None? <==> AllWhiteSpace(field)
    ensures r.sent.None? ==> r.field == field
    ensures r.sent.Some? ==>
      && r.field == []
      && r.sent.value.role == User
      && r.sent.value.content != []
      && Trimmed(r.sent.value.content)
      && r.sent.value.content == Trim(field)
  {
    var text := Trim(field);
    if text != [] then Submission([], Some(Message(User, text)))
    else Submission(field, None)
  }

  /**
    The Send button is disabled exactly when a submit would send nothing,
    that is when the field holds only white space.
   */
  lemma SendButtonMatchesSubmit(field: string)
    ensures SendDisabled(field) <==> HandleSubmit(field).sent.None?
    ensures SendDisabled(field) <==> AllWhiteSpace(field)
  {
  }
}

=== FILE: chat_window.dfy ===
/**
  The chat window's turn handler `handleSendMessage`. It appends the
  submitted message, raises the loading flag, posts the request, reads the
  streamed reply chunk by chunk and folds every `data: ` line into a single
  assistant message. On any failure the reply collapses to a fixed error
  text, and the loading flag is cleared on every exit.

  The transport is abstracted to its observable outcome (`Response`): the
  chunks arrive already decoded to text, and the state updates the handler
  queues are applied one after another in the order they are issued.
 */
module ChatWindow {

  import opened Wrappers
  import opened Strings
  import opened Transcript
  import ChatInput

  /** The instruction sent with every request. */
  const SystemPrefix: string := "You are an AI assistant."

  /** The marker of a line that carries reply text. */
  const DataPrefix: string := "data: "

  /** The JSON body of the chat request. */
  datatype Request = Request(prefix: string, message: string, history: seq<Message>)

  /**
    A response body as the reader delivers it: the decoded chunks in arrival
    order, and whether a read fails after the last of them (otherwise the
    reader reports the end of the stream). A read that never settles cannot
    be expressed.
   */
  datatype Body = Body(chunks: seq<string>, readFails: bool)

  /** The outcome of `fetch`: a rejected promise, or a response with its status and optional body. */
  datatype Response = NetworkFailure | Response(ok: bool, body: Option<Body>)

  /** The window's state: the transcript and the loading flag. */
  datatype Chat = Chat(messages: seq<Message>, loading: bool)

  /** The state while reading the stream: the window state and the text received so far in this turn. */
  datatype Streaming = Streaming(chat: Chat, acc: string)

  /** The transcript's last message is an assistant message showing all the text received so far. */
  predicate Shows(st: Streaming) {
    EndsWithAssistant(st.chat.messages) && Last(st.chat.messages).content == st.acc
  }

  /** What one turn leaves behind: the request it sent and the final window state. */
  datatype Turn = Turn(request: Request, chat: Chat)

  // ---------------------------------------------------------------------
  // Line classification
  // ---------------------------------------------------------------------

  /**
    The reply text a line carries: a line contributes exactly when it starts
    with `data: ` (one space, case-sensitive), and its payload is the rest of
    the line after those six characters.
   */
  function LinePayload(line: string): (payload: Option<string>)
    ensures payload.Some? <==> StartsWith(line, DataPrefix)
    ensures payload.Some? ==> DataPrefix + payload.value == line
  {
    if StartsWith(line, DataPrefix) then Some(line[|DataPrefix|..]) else None
  }

  /** `data:` without the following space does not mark a data line. */
  lemma PrefixNeedsTheSpace(rest: string)
    ensures LinePayload("data:" + rest).Some? <==> |rest| > 0 && rest[0] == ' '
  {
    var line := "data:" + rest;
    if |rest| > 0 && rest[0] == ' ' {
      assert line[..6] == "data:" + [' '];
    } else if |line| >= 6 {
      assert line[5] == rest[0];
    }
  }

  /** The payloads of the data lines among `lines`, in order. */
  function LinePayloads(lines: seq<string>): seq<string>
    decreases |lines|
  {
    if |lines| == 0 then []
    else
      var last := LinePayload(lines[|lines| - 1]);
      LinePayloads(lines[..|lines| - 1]) + (if last.Some? then [last.value] else [])
  }

  /**
    The payloads a sequence of reads delivers: each chunk is split on line
    feeds on its own, with nothing carried over from one chunk to the next.
   */
  function ChunkPayloads(chunks: seq<string>): seq<string>
    decreases |chunks|
  {
    if |chunks| == 0 then []
    else ChunkPayloads(chunks[..|chunks| - 1]) + LinePayloads(Split(chunks[|chunks| - 1], '\n'))
  }

  // ---------------------------------------------------------------------
  // State updates
  // ---------------------------------------------------------------------

  /** The first two statements of the handler: append the message and raise the loading flag. */
  function Submit(chat: Chat, message: Message): (r: Chat)
    ensures r.loading
    ensures |r.messages| == |chat.messages| + 1
    ensures r.messages[..|chat.messages|] == chat.messages
    ensures Last(r.messages) == message
  {
    Chat(chat.messages + [message], true)
  }

  /**
    How the stream reducer may move from `st` to `r` while applying the
    payloads `ps` in order:
    - the loading flag is untouched and the running text grows by exactly
      the concatenation of `ps`;
    - only the transcript's last index is ever rewritten, and at most one
      message is pushed, never a second one after an assistant message;
    - a transcript that does not end with an assistant message is kept
      whole as a prefix;
    - with no payloads nothing changes, and after at least one the
      transcript ends with an assistant message, which shows the whole
      running text when the text started empty or was already shown, when
      the transcript already ended with an assistant message, or once two
      or more payloads were applied (the first may push just its own
      payload, every later one writes the whole running text); a single
      payload after a non-assistant message is pushed on its own.
   */
  predicate Advances(st: Streaming, ps: seq<string>, r: Streaming) {
    && r.chat.loading == st.chat.loading
    && r.acc == st.acc + Concat(ps)
    && SameBeforeLast(st.chat.messages, r.chat.messages)
    && |r.chat.messages| <= |st.chat.messages| + 1
    && (EndsWithAssistant(st.chat.messages) ==> |r.chat.messages| == |st.chat.messages|)
    && (!EndsWithAssistant(st.chat.messages) ==> Extends(st.chat.messages, r.chat.messages))
    && (ps == [] ==> r == st)
    && (ps != [] ==> EndsWithAssistant(r.chat.messages))
    && (Shows(st) ==> Shows(r))
    && (st.acc == [] && ps != [] ==> Shows(r))
    && (ps != [] && EndsWithAssistant(st.chat.messages) ==> Shows(r))
    && (|ps| > 1 ==> Shows(r))
    && (|ps| == 1 && !EndsWithAssistant(st.chat.messages) ==> Last(r.chat.messages).content == ps[0])
  }

  /** Applying `p1` and then `p2` is applying `p1 + p2`. */
  lemma AdvancesCompose(st: Streaming, p1: seq<string>, mid: Streaming, p2: seq<string>, r: Streaming)
    requires Advances(st, p1, mid) && Advances(mid, p2, r)
    ensures Advances(st, p1 + p2, r)
  {
    var a, b, c := st.chat.messages, mid.chat.messages, r.chat.messages;
    ConcatAppend(p1, p2);
    SameBeforeLastTransitive(a, b, c);
    if !EndsWithAssistant(a) {
      if EndsWithAssistant(b) {
        ExtendsThenSameBeforeLast(a, b, c);
      } else {
        ExtendsTransitive(a, b, c);
      }
    }
  }

  /** The payload of a line as a sequence of zero or one payloads. */
  function PayloadOf(line: string): seq<string> {
    match LinePayload(line)
    case None => []
    case Some(data) => [data]
  }

  /**
    The update queued for one line. A data line adds its payload to the
    running text; the transcript's last message, when it is an assistant
    message, then takes the whole running text, and otherwise a new
    assistant message carrying just this payload is pushed. Other lines
    change nothing.
   */
  function Step(st: Streaming, line: string): (r: Streaming)
    ensures Advances(st, PayloadOf(line), r)
    ensures LinePayload(line).Some? ==> (Last(r.chat.messages) ==
      Message(Assistant, if EndsWithAssistant(st.chat.messages) then r.acc else LinePayload(line).value))
  {
    match LinePayload(line)
    case None => st
    case Some(data) =>
      var acc := st.acc + data;
      assert Concat([data]) == data by { assert [data][..0] == []; }
      Streaming(Chat(UpsertAssistant(st.chat.messages, acc, data), st.chat.loading), acc)
  }

  /** The lines of one chunk, processed in order. */
  function ProcessLines(st: Streaming, lines: seq<string>): (r: Streaming)
    ensures Advances(st, LinePayloads(lines), r)
    decreases |lines|
  {
    if |lines| == 0 then st
    else
      var init := lines[..|lines| - 1];
      var last := lines[|lines| - 1];
      var mid := ProcessLines(st, init);
      assert LinePayloads(lines) == LinePayloads(init) + PayloadOf(last);
      AdvancesCompose(st, LinePayloads(init), mid, PayloadOf(last), Step(mid, last));
      Step(mid, last)
  }

  /** The chunks of a stream in arrival order, each split on line feeds on its own. */
  function ProcessChunks(st: Streaming, chunks: seq<string>): (r: Streaming)
    ensures Advances(st, ChunkPayloads(chunks), r)
    decreases |chunks|
  {
    if |chunks| == 0 then st
    else
      var init := chunks[..|chunks| - 1];
      var lines := Split(chunks[|chunks| - 1], '\n');
      var mid := ProcessChunks(st, init);
      AdvancesCompose(st, ChunkPayloads(init), mid, LinePayloads(lines), ProcessLines(mid, lines));
      ProcessLines(mid, lines)
  }

  /**
    The update queued by the `catch` block: the last assistant message's
    content is replaced by the error text, or, when the last message is not
    an assistant message, an assistant message carrying the error text is
    pushed. Partial reply text is discarded, not extended.
   */
  function Fail(chat: Chat): (r: Chat)
    ensures r.loading == chat.loading
    ensures EndsWithAssistant(r.messages) && Last(r.messages) == Message(Assistant, ErrorText)
    ensures SameBeforeLast(chat.messages, r.messages)
    ensures EndsWithAssistant(chat.messages) ==> |r.messages| == |chat.messages|
    ensures !EndsWithAssistant(chat.messages) ==>
      |r.messages| == |chat.messages| + 1 && Extends(chat.messages, r.messages)
  {
    chat.(messages := UpsertAssistant(chat.messages, ErrorText, ErrorText))
  }

  /** The `finally` block: the loading flag is cleared and nothing else changes. */
  function Settle(chat: Chat): (r: Chat)
    ensures !r.loading && r.messages == chat.messages
  {
    chat.(loading := false)
  }

  // ---------------------------------------------------------------------
  // The turn
  // ---------------------------------------------------------------------

  /**
    The `try`/`catch` part of the handler, run on the window state just
    after the submitted message was appended: check the response, read the
    body's chunks, and collapse the reply to the error text on any failure.
    Only the last message of `submitted` may be rewritten and at most one
    message is added.
   */
  function Answer(submitted: Chat, response: Response): (c: Chat)
    ensures c.loading == submitted.loading
    ensures SameBeforeLast(submitted.messages, c.messages)
    ensures |c.messages| <= |submitted.messages| + 1
    ensures Failed(response) ==>
      EndsWithAssistant(c.messages) && Last(c.messages) == Message(Assistant, ErrorText)
    ensures !Failed(response) && ChunkPayloads(Delivered(response)) != [] ==>
      EndsWithAssistant(c.messages) && Last(c.messages) == Message(Assistant, Concat(ChunkPayloads(Delivered(response))))
    ensures !Failed(response) && ChunkPayloads(Delivered(response)) == [] ==> c == submitted
    ensures !EndsWithAssistant(submitted.messages) ==> Extends(submitted.messages, c.messages)
  {
    match response
    case NetworkFailure => Fail(submitted)
    case Response(ok, body) =>
      if !ok || body.None? then Fail(submitted)
      else
        var st := ProcessChunks(Streaming(submitted, ""), body.value.chunks);
        if body.value.readFails then
          SameBeforeLastTransitive(submitted.messages, st.chat.messages, Fail(st.chat).messages);
          Fail(st.chat)
        else st.chat
  }

  /**
    `handleSendMessage`. The request's history is the transcript as it was
    before the submitted message was appended. A non-ok status, a missing
    body, a rejected `fetch` and a failing read all take the error path, and
    the loading flag ends cleared on every path. Nothing checks the loading
    flag on entry.
   */
  function HandleSendMessage(chat: Chat, message: Message, response: Response): (t: Turn)
    ensures t.request == Request(SystemPrefix, message.content, chat.messages)
    ensures !t.chat.loading
    ensures |chat.messages| < |t.chat.messages| <= |chat.messages| + 2
    ensures Extends(chat.messages, t.chat.messages)
    ensures Failed(response) ==> Last(t.chat.messages) == Message(Assistant, ErrorText)
    ensures !Failed(response) && ChunkPayloads(Delivered(response)) != [] ==>
      Last(t.chat.messages) == Message(Assistant, Concat(ChunkPayloads(Delivered(response))))
    ensures !Failed(response) && ChunkPayloads(Delivered(response)) == [] ==>
      t.chat.messages == chat.messages + [message]
  {
    var request := Request(SystemPrefix, message.content, chat.messages);
    var submitted := Submit(chat, message);
    var answered := Answer(submitted, response);
    assert answered.messages[..|chat.messages|] == answered.messages[..|submitted.messages| - 1];
    Turn(request, Settle(answered))
  }

  /** Whether a response ends the turn on the error path. */
  predicate Failed(response: Response) {
    match response
    case NetworkFailure => true
    case Response(ok, body) => !ok || body.None? || body.value.readFails
  }

  /** The chunks the reader hands over before the stream ends or a read fails. */
  function Delivered(response: Response): seq<string> {
    match response
    case NetworkFailure => []
    case Response(ok, body) => if ok && body.Some? then body.value.chunks else []
  }

  // ---------------------------------------------------------------------
  // What a turn leaves behind
  // ---------------------------------------------------------------------

  /** The reply a turn appends after the submitted user message. */
  function ExpectedReply(response: Response): seq<Message> {
    if Failed(response) then [Message(Assistant, ErrorText)]
    else
      var ps := ChunkPayloads(Delivered(response));
      if ps == [] then [] else [Message(Assistant, Concat(ps))]
  }

  /**
    The shape of the transcript within a turn after the payloads `ps`: the
    transcript up to the submitted message, followed by no assistant message
    while `ps` is empty and by exactly one, holding all of `ps` concatenated,
    afterwards (even when the payloads are empty strings).
   */
  predicate InTurn(base: seq<Message>, st: Streaming, ps: seq<string>) {
    && st.acc == Concat(ps)
    && st.chat.messages == base + (if ps == [] then [] else [Message(Assistant, Concat(ps))])
  }

  lemma AdvancesKeepsTurnShape(base: seq<Message>, st: Streaming, ps: seq<string>, qs: seq<string>, r: Streaming)
    requires !EndsWithAssistant(base) && InTurn(base, st, ps) && Advances(st, qs, r)
    ensures InTurn(base, r, ps + qs)
  {
    ConcatAppend(ps, qs);
    if qs == [] {
      assert ps + qs == ps;
    } else if ps == [] {
      assert st.chat.messages == base;
      assert |r.chat.messages| == |base| + 1;
      assert r.chat.messages == r.chat.messages[..|base|] + [Last(r.chat.messages)];
    } else {
      assert Shows(st);
      assert r.chat.messages[..|base|] == st.chat.messages[..|base|] == base;
      assert r.chat.messages == r.chat.messages[..|base|] + [Last(r.chat.messages)];
    }
  }

  /** The turn-shape invariant holds after every line of a chunk, line by line. */
  lemma LinesKeepTurnShape(base: seq<Message>, st: Streaming, ps: seq<string>, lines: seq<string>)
    requires !EndsWithAssistant(base) && InTurn(base, st, ps)
    ensures InTurn(base, ProcessLines(st, lines), ps + LinePayloads(lines))
  {
    AdvancesKeepsTurnShape(base, st, ps, LinePayloads(lines), ProcessLines(st, lines));
  }

  /** The turn-shape invariant holds after every read, chunk by chunk. */
  lemma ChunksKeepTurnShape(base: seq<Message>, st: Streaming, ps: seq<string>, chunks: seq<string>)
    requires !EndsWithAssistant(base) && InTurn(base, st, ps)
    ensures InTurn(base, ProcessChunks(st, chunks), ps + ChunkPayloads(chunks))
  {
    AdvancesKeepsTurnShape(base, st, ps, ChunkPayloads(chunks), ProcessChunks(st, chunks));
  }

  /** The error collapse within a turn leaves exactly one assistant message after the submitted one. */
  lemma FailKeepsTurnShape(base: seq<Message>, st: Streaming, ps: seq<string>)
    requires !EndsWithAssistant(base) && InTurn(base, st, ps)
    ensures Fail(st.chat).messages == base + [Message(Assistant, ErrorText)]
  {
    var r := Fail(st.chat).messages;
    if ps != [] {
      assert r[..|base|] == st.chat.messages[..|base|] == base;
    }
    assert r == r[..|base|] + [Last(r)];
  }

  /**
    A turn started from the input box (whose messages always have the user
    role) appends the user message and then exactly its reply: one
    assistant message holding every payload in arrival order on success
    (none when no data line arrived), or one holding the error text on any
    failure, whatever had streamed before it. Every earlier message is
    untouched, the loading flag ends cleared, and the request's history is
    the transcript just before the submitted message.
   */
  lemma TurnOutcome(chat: Chat, message: Message, response: Response)
    requires message.role == User
    ensures var t := HandleSendMessage(chat, message, response);
      && t.chat.messages == chat.messages + [message] + ExpectedReply(response)
      && !t.chat.loading
      && t.request.prefix == SystemPrefix
      && t.request.message == message.content
      && t.request.history == chat.messages
  {
    var base := chat.messages + [message];
    var submitted := Submit(chat, message);
    var start := Streaming(submitted, "");
    assert InTurn(base, start, []);
    var t := HandleSendMessage(chat, message, response);
    match response
    case NetworkFailure =>
      FailKeepsTurnShape(base, start, []);
    case Response(ok, body) =>
      if !ok || body.None? {
        FailKeepsTurnShape(base, start, []);
      } else {
        var ps := ChunkPayloads(body.value.chunks);
        var st := ProcessChunks(start, body.value.chunks);
        ChunksKeepTurnShape(base, start, [], body.value.chunks);
        assert [] + ps == ps;
        if body.value.readFails {
          FailKeepsTurnShape(base, st, ps);
        }
      }
    assert t.chat.messages[..|chat.messages| + 1] == base;
  }

  // ---------------------------------------------------------------------
  // Chunk boundaries
  // ---------------------------------------------------------------------

  lemma {:induction false} LinePayloadsAppend(a: seq<string>, b: seq<string>)
    ensures LinePayloads(a + b) == LinePayloads(a) + LinePayloads(b)
    decreases |b|
  {
    if |b| == 0 {
      assert a + b == a;
    } else {
      LinePayloadsAppend(a, b[..|b| - 1]);
      assert (a + b)[..|a + b| - 1] == a + b[..|b| - 1];
    }
  }

  /**
    Chunk boundaries do not matter as long as every read except the last
    ends at a line end: the payloads are then those of the whole body split
    into lines at once.
   */
  lemma {:induction false} ChunkingHarmlessAtLineEnds(chunks: seq<string>)
    requires forall i :: 0 <= i < |chunks| - 1 ==> EndsWithChar(chunks[i], '\n')
    ensures ChunkPayloads(chunks) == LinePayloads(Split(Concat(chunks), '\n'))
    decreases |chunks|
  {
    if |chunks| == 0 {
      assert LinePayloads([""]) == LinePayloads([]) + [];
    } else {
      var init := chunks[..|chunks| - 1];
      var c := chunks[|chunks| - 1];
      if |init| == 0 {
        assert Concat(chunks) == Concat(init) + c == c;
      } else {
        ChunkingHarmlessAtLineEnds(init);
        assert EndsWithChar(chunks[|chunks| - 2], '\n');
        var whole := Concat(init);
        assert whole == Concat(init[..|init| - 1]) + init[|init| - 1];
        var a := whole[..|whole| - 1];
        assert whole == a + ['\n'] + "";
        SplitAroundSeparator(a, "", '\n');
        LinePayloadsAppend(Split(a, '\n'), [""]);
        assert LinePayloads([""]) == LinePayloads([]) + [];
        assert Concat(chunks) == a + ['\n'] + c;
        SplitAroundSeparator(a, c, '\n');
        LinePayloadsAppend(Split(a, '\n'), Split(c, '\n'));
      }
    }
  }

  /** A read without a line feed is a single line. */
  lemma OneLineChunk(init: seq<string>, c: string)
    requires '\n' !in c
    ensures ChunkPayloads(init + [c]) == ChunkPayloads(init) + PayloadOf(c)
  {
    SplitWithoutSeparator(c, '\n');
    assert (init + [c])[..|init|] == init;
    assert [c][..0] == [];
    assert LinePayloads([c]) == PayloadOf(c);
  }

  /** A single data line read on its own yields its payload. */
  lemma OneDataLineRead(line: string, payload: string)
    requires '\n' !in line && line == DataPrefix + payload
    ensures ChunkPayloads([line]) == [payload]
    ensures Concat(ChunkPayloads([line])) == payload
  {
    OneLineChunk([], line);
    assert [] + [line] == [line];
    assert line[..|DataPrefix|] == DataPrefix;
    assert LinePayload(line) == Some(payload);
    assert Concat([payload]) == payload by { assert [payload][..0] == []; }
  }

  /**
    With no buffer carried between reads, a data line split across two
    reads loses its tail: the second read's piece has no `data: ` prefix and
    is ignored. The same text delivered in one read gives the whole line.
   */
  lemma SplitDataLineIsTruncated(chat: Chat, question: string, head: string, tail: string)
    requires '\n' !in head && '\n' !in tail && !StartsWith(tail, DataPrefix)
    ensures HandleSendMessage(chat, Message(User, question),
        Response(true, Some(Body([DataPrefix + head, tail], false)))).chat.messages
      == chat.messages + [Message(User, question), Message(Assistant, head)]
    ensures HandleSendMessage(chat, Message(User, question),
        Response(true, Some(Body([DataPrefix + head + tail], false)))).chat.messages
      == chat.messages + [Message(User, question), Message(Assistant, head + tail)]
  {
    SplitReadReply(chat, question, head, tail);
    assert '\n' !in head + tail;
    assert DataPrefix + head + tail == DataPrefix + (head + tail);
    WholeReadReply(chat, question, head + tail);
  }

  lemma SplitReadReply(chat: Chat, question: string, head: string, tail: string)
    requires '\n' !in head && '\n' !in tail && !StartsWith(tail, DataPrefix)
    ensures HandleSendMessage(chat, Message(User, question),
        Response(true, Some(Body([DataPrefix + head, tail], false)))).chat.messages
      == chat.messages + [Message(User, question), Message(Assistant, head)]
  {
    var split := [DataPrefix + head, tail];
    OneDataLineRead(split[0], head);
    OneLineChunk([split[0]], tail);
    assert [split[0]] + [tail] == split;
    assert LinePayload(tail) == None;
    TurnOutcome(chat, Message(User, question), Response(true, Some(Body(split, false))));
  }

  lemma WholeReadReply(chat: Chat, question: string, payload: string)
    requires '\n' !in payload
    ensures HandleSendMessage(chat, Message(User, question),
        Response(true, Some(Body([DataPrefix + payload], false)))).chat.messages
      == chat.messages + [Message(User, question), Message(Assistant, payload)]
  {
    var response := Response(true, Some(Body([DataPrefix + payload], false)));
    OneDataLineRead(DataPrefix + payload, payload);
    assert ExpectedReply(response) == [Message(Assistant, payload)];
    TurnOutcome(chat, Message(User, question), response);
  }

  /** A data line with an empty payload still opens the reply, as an empty assistant message. */
  lemma EmptyPayloadOpensReply(chat: Chat, question: string)
    ensures HandleSendMessage(chat, Message(User, question), Response(true, Some(Body(["data: "], false)))).chat.messages
      == chat.messages + [Message(User, question), Message(Assistant, "")]
  {
    assert DataPrefix + "" == "data: ";
    WholeReadReply(chat, question, "");
  }

  /**
    Partial reply text is replaced, not extended, when a read fails,
    whatever had streamed before.
   */
  lemma FailureCollapsesPartialReply(chat: Chat, question: string, chunks: seq<string>)
    ensures HandleSendMessage(chat, Message(User, question), Response(true, Some(Body(chunks, true)))).chat
      == Chat(chat.messages + [Message(User, question), Message(Assistant, ErrorText)], false)
  {
    TurnOutcome(chat, Message(User, question), Response(true, Some(Body(chunks, true))));
  }

  // ---------------------------------------------------------------------
  // Overlapping turns
  // ---------------------------------------------------------------------

  /**
    Nothing stops a second submission while a turn is still streaming, and
    the two turns then share one transcript. In this interleaving the first
    turn has shown "A" when the second question is appended; the first
    turn's next line finds a user message last and pushes just its own
    payload "B"; the first turn then clears the loading flag although the
    second is still open; and the second turn's first line overwrites the
    first turn's late reply.
   */
  lemma OverlappingTurnsShareTheTranscript(q1: string, q2: string)
    ensures
      var first := Submit(Chat([], false), Message(User, q1));
      var shown := Step(Streaming(first, ""), "data: A");
      var second := Submit(shown.chat, Message(User, q2));
      var late := Step(Streaming(second, shown.acc), "data: B");
      var firstDone := Settle(late.chat);
      var answer := Step(Streaming(firstDone, ""), "data: X");
      && shown.chat.loading
      && late.chat.messages
        == [Message(User, q1), Message(Assistant, "A"), Message(User, q2), Message(Assistant, "B")]
      && !firstDone.loading
      && answer.chat.messages
        == [Message(User, q1), Message(Assistant, "A"), Message(User, q2), Message(Assistant, "X")]
  {
    var first := Submit(Chat([], false), Message(User, q1));
    assert LinePayload("data: A") == Some("A");
    var shown := Step(Streaming(first, ""), "data: A");
    assert shown.chat.messages == [Message(User, q1), Message(Assistant, "A")];
    var second := Submit(shown.chat, Message(User, q2));
    assert LinePayload("data: B") == Some("B");
    var late := Step(Streaming(second, shown.acc), "data: B");
    assert late.chat.messages == second.messages + [Message(Assistant, "B")];
    var firstDone := Settle(late.chat);
    assert LinePayload("data: X") == Some("X");
    assert Concat(["X"]) == "X" by { assert ["X"][..0] == []; }
    var answer := Step(Streaming(firstDone, ""), "data: X");
    assert answer.chat.messages == late.chat.messages[..3] + [Message(Assistant, "X")];
  }

  // ---------------------------------------------------------------------
  // The input box wired to the handler
  // ---------------------------------------------------------------------

  /** The window as the user sees it: the input field and the chat state. */
  datatype Window = Window(field: string, chat: Chat)

  /**
    Submitting the input form: the input box's handler decides whether a
    message is sent and clears the field, and a sent message starts a turn.
   */
  function SubmitForm(w: Window, response: Response): (r: Window)
    ensures ChatInput.AllWhiteSpace(w.field) ==> r == w
    ensures !ChatInput.AllWhiteSpace(w.field) ==>
      && r.field == []
      && r.chat.messages == w.chat.messages + [Message(User, ChatInput.Trim(w.field))] + ExpectedReply(response)
      && !r.chat.loading
  {
    var submission := ChatInput.HandleSubmit(w.field);
    match submission.sent
    case None => w
    case Some(message) =>
      TurnOutcome(w.chat, message, response);
      Window(submission.field, HandleSendMessage(w.chat, message, response).chat)
  }
}

=== FILE: profile_image_selector.dfy ===
/**
  The profile-image dialog: a file chooser that accepts image files of at
  most 5 MiB and shows the chosen image as a preview, a Remove button that
  clears the preview, and Save and Cancel buttons. Only Save hands the
  preview to the dialog's owner, which holds the committed image.
 */
module ProfileImageSelector {

  import opened Wrappers
  import opened Strings

  /** The MIME type prefix of an image file. */
  const ImageTypePrefix: string := "image/"

  /** The largest accepted file size in bytes: 5 MiB. */
  const MaxImageBytes: nat := 5 * 1024 * 1024

  /** The parts of a chosen file the handler inspects. */
  datatype ImageFile = ImageFile(mimeType: string, size: nat)

  /** The outcome of checking a chosen file; the type is checked before the size. */
  datatype Verdict = Accepted | NotAnImage | TooLarge

  /**
    The dialog's state (`open` and `previewUrl`) together with the image
    its owner holds (`currentImage`, replaced through `onImageChange`).
   */
  datatype Selector = Selector(open: bool, preview: Option<string>, committed: Option<string>)

  /**
    A file is accepted exactly when its MIME type starts with `image/` and it
    is at most 5 MiB; a non-image is reported as such whatever its size.
   */
  function CheckFile(f: ImageFile): (v: Verdict)
    ensures v == Accepted <==> StartsWith(f.mimeType, ImageTypePrefix) && f.size <= MaxImageBytes
    ensures v == NotAnImage <==> !StartsWith(f.mimeType, ImageTypePrefix)
  {
    if !StartsWith(f.mimeType, ImageTypePrefix) then NotAnImage
    else if f.size > MaxImageBytes then TooLarge
    else Accepted
  }

  /** The size check is inclusive: exactly 5 MiB (5,242,880 bytes) passes, one byte more does not. */
  lemma SizeLimitBoundary(mimeType: string)
    requires StartsWith(mimeType, ImageTypePrefix)
    ensures CheckFile(ImageFile(mimeType, 5242880)) == Accepted
    ensures CheckFile(ImageFile(mimeType, 5242881)) == TooLarge
  {
  }

  /** The dialog as first rendered: closed, previewing the committed image. */
  function Mount(current: Option<string>): (s: Selector)
    ensures !s.open && s.preview == current && s.committed == current
  {
    Selector(false, current, current)
  }

  /**
    A new `currentImage` from the owner. The preview was initialised from
    the committed image when the dialog was first rendered and does not
    follow later changes.
   */
  function OwnerSetsImage(s: Selector, image: Option<string>): (r: Selector)
    ensures r.committed == image && r.preview == s.preview && r.open == s.open
  {
    s.(committed := image)
  }

  /**
    `handleFileChange`: only the first chosen file is looked at. With no
    file, or a file that fails the check, nothing changes; an accepted
    file's read result becomes the preview. The committed image and the
    open flag never change here.
   */
  function ChooseFiles(s: Selector, files: seq<ImageFile>, readResult: string): (r: Selector)
    ensures r.open == s.open && r.committed == s.committed
    ensures r != s ==> r.preview == Some(readResult)
    ensures r.preview == Some(readResult) <==>
      (|files| > 0 && CheckFile(files[0]) == Accepted) || s.preview == Some(readResult)
  {
    if |files| == 0 then s
    else if CheckFile(files[0]) != Accepted then s
    else s.(preview := Some(readResult))
  }

  /** `handleSave`: the preview becomes the committed image and the dialog closes. */
  function Save(s: Selector): (r: Selector)
    ensures r.committed == s.preview && !r.open && r.preview == s.preview
  {
    Selector(false, s.preview, s.preview)
  }

  /** `handleRemove`: the preview is cleared; nothing is committed. */
  function Remove(s: Selector): (r: Selector)
    ensures r.preview == None && r.open == s.open && r.committed == s.committed
  {
    s.(preview := None)
  }

  /** Opening or closing the dialog (the trigger, Cancel, or dismissing it): nothing else changes. */
  function SetOpen(s: Selector, open: bool): (r: Selector)
    ensures r.open == open && r.preview == s.preview && r.committed == s.committed
  {
    s.(open := open)
  }

  /**
    The Remove button sits in the dialog's content, which is rendered only
    while the dialog is open, and only while the preview is a non-empty
    string.
   */
  predicate RemoveShown(s: Selector) {
    s.open && s.preview.Some? && s.preview.value != []
  }

  /**
    The Remove button shows when the dialog is first opened exactly when
    the committed image is a non-empty string, appears once an accepted
    file yields a non-empty read result in the open dialog, and disappears
    once clicked.
   */
  lemma RemoveButtonVisibility(current: Option<string>, s: Selector, files: seq<ImageFile>, readResult: string)
    ensures !RemoveShown(Mount(current))
    ensures RemoveShown(SetOpen(Mount(current), true)) <==> current.Some? && current.value != []
    ensures s.open && |files| > 0 && CheckFile(files[0]) == Accepted && readResult != [] ==>
      RemoveShown(ChooseFiles(s, files, readResult))
    ensures !RemoveShown(Remove(s))
  {
  }

  /** What the user can do while the dialog is mounted. */
  datatype Event =
    | OpenChange(open: bool)
    | FilesChosen(files: seq<ImageFile>, readResult: string)
    | SaveClicked
    | RemoveClicked

  function Apply(s: Selector, e: Event): Selector {
    match e
    case OpenChange(open) => SetOpen(s, open)
    case FilesChosen(files, readResult) => ChooseFiles(s, files, readResult)
    case SaveClicked => Save(s)
    case RemoveClicked => Remove(s)
  }

  /** The events applied in order. */
  function Run(s: Selector, es: seq<Event>): Selector
    decreases |es|
  {
    if |es| == 0 then s else Apply(Run(s, es[..|es| - 1]), es[|es| - 1])
  }

  /** Without a Save the committed image never changes, whatever else happens. */
  lemma {:induction false} CommittedOnlyBySave(s: Selector, es: seq<Event>)
    requires forall i :: 0 <= i < |es| ==> !es[i].SaveClicked?
    ensures Run(s, es).committed == s.committed
    decreases |es|
  {
    if |es| > 0 {
      CommittedOnlyBySave(s, es[..|es| - 1]);
    }
  }

  /** The committed image is the preview as it stood at the last Save. */
  lemma {:induction false} CommittedIsLastSavedPreview(s: Selector, es: seq<Event>, i: nat)
    requires i < |es| && es[i].SaveClicked?
    requires forall j :: i < j < |es| ==> !es[j].SaveClicked?
    ensures Run(s, es).committed == Run(s, es[..i]).preview
    decreases |es|
  {
    if i < |es| - 1 {
      var init := es[..|es| - 1];
      assert init[..i] == es[..i];
      CommittedIsLastSavedPreview(s, init, i);
    } else {
      assert es[..|es| - 1] == es[..i];
    }
  }

  /**
    Cancel keeps an uploaded preview: while the selector stays mounted,
    reopening the dialog shows the uncommitted image again, and the
    committed one is unchanged.
   */
  lemma CancelKeepsUncommittedPreview(s: Selector, file: ImageFile, readResult: string)
    requires CheckFile(file) == Accepted
    ensures var r := Run(s, [FilesChosen([file], readResult), OpenChange(false), OpenChange(true)]);
      r.open && r.preview == Some(readResult) && r.committed == s.committed
  {
    var es := [FilesChosen([file], readResult), OpenChange(false), OpenChange(true)];
    assert es[..1][..0] == [];
    assert Run(s, es[..1]) == ChooseFiles(s, [file], readResult);
    assert es[..2][..1] == es[..1];
    assert Run(s, es[..2]) == SetOpen(Run(s, es[..1]), false);
    assert es[..3][..2] == es[..2];
  }

  /**
    An image the owner sets after the first render never reaches the
    preview, so opening the dialog and saving hands the old preview back.
   */
  lemma SaveAfterOwnerUpdateRestoresMountedImage(mounted: Option<string>, later: Option<string>)
    ensures Save(SetOpen(OwnerSetsImage(Mount(mounted), later), true)).committed == mounted
  {
  }
}

=== FILE: strings.dfy ===
/**
  Text operations with the meaning of the JavaScript string methods the chat
  client uses: `startsWith`, `split` on a one-character separator, `join`,
  and the concatenation performed by repeated `+=`.
 */
module Strings {

  /** `s.startsWith(prefix)`: an exact, case-sensitive prefix test. */
  predicate StartsWith(s: string, prefix: string) {
    |prefix| <= |s| && s[..|prefix|] == prefix
  }

  predicate EndsWithChar(s: string, c: char) {
    |s| > 0 && s[|s| - 1] == c
  }

  /**
    `s.split(sep)` for a one-character separator: the maximal separator-free
    pieces of `s`, in order. There is always at least one piece; `""` splits
    into `[""]` and a trailing separator yields a trailing `""`.
   */
  function Split(s: string, sep: char): (pieces: seq<string>)
    ensures |pieces| >= 1
    ensures forall k :: 0 <= k < |pieces| ==> sep !in pieces[k]
    decreases |s|
  {
    if |s| == 0 then [""]
    else
      var rest := Split(s[1..], sep);
      if s[0] == sep then [""] + rest
      else [[s[0]] + rest[0]] + rest[1..]
  }

  /** `pieces.join(sep)`. */
  function Join(pieces: seq<string>, sep: char): string
    decreases |pieces|
  {
    if |pieces| == 0 then ""
    else if |pieces| == 1 then pieces[0]
    else pieces[0] + [sep] + Join(pieces[1..], sep)
  }

  /** The concatenation of `parts` in order, as built up by `acc += part`. */
  function Concat(parts: seq<string>): string
    decreases |parts|
  {
    if |parts| == 0 then "" else Concat(parts[..|parts| - 1]) + parts[|parts| - 1]
  }

  /** Splitting loses nothing: joining the pieces back gives the input. */
  lemma {:induction false} JoinSplit(s: string, sep: char)
    ensures Join(Split(s, sep), sep) == s
    decreases |s|
  {
    if |s| > 0 {
      var rest := Split(s[1..], sep);
      JoinSplit(s[1..], sep);
      assert s == [s[0]] + s[1..];
      if s[0] == sep {
        assert ([""] + rest)[1..] == rest;
      } else if |rest| > 1 {
        var pieces := [[s[0]] + rest[0]] + rest[1..];
        assert pieces[1..] == rest[1..];
        assert Join(rest, sep) == rest[0] + [sep] + Join(rest[1..], sep);
      }
    }
  }

  /** A separator-free string is a single piece. */
  lemma {:induction false} SplitWithoutSeparator(s: string, sep: char)
    requires sep !in s
    ensures Split(s, sep) == [s]
    decreases |s|
  {
    if |s| > 0 {
      assert sep !in s[1..];
      SplitWithoutSeparator(s[1..], sep);
      assert s == [s[0]] + s[1..];
    }
  }

  /** Splitting around one separator splits each side independently. */
  lemma {:induction false} SplitAroundSeparator(a: string, b: string, sep: char)
    ensures Split(a + [sep] + b, sep) == Split(a, sep) + Split(b, sep)
    decreases |a|
  {
    var s := a + [sep] + b;
    if |a| == 0 {
      assert s == [sep] + b;
      assert s[1..] == b;
    } else {
      assert s[1..] == a[1..] + [sep] + b;
      SplitAroundSeparator(a[1..], b, sep);
    }
  }

  /** The converse round trip: separator-free pieces survive join then split. */
  lemma {:induction false} SplitJoin(pieces: seq<string>, sep: char)
    requires |pieces| >= 1
    requires forall k :: 0 <= k < |pieces| ==> sep !in pieces[k]
    ensures Split(Join(pieces, sep), sep) == pieces
    decreases |pieces|
  {
    if |pieces| == 1 {
      SplitWithoutSeparator(pieces[0], sep);
    } else {
      SplitJoin(pieces[1..], sep);
      SplitWithoutSeparator(pieces[0], sep);
      SplitAroundSeparator(pieces[0], Join(pieces[1..], sep), sep);
      assert pieces == [pieces[0]] + pieces[1..];
    }
  }

  /** Concatenation distributes over sequence append. */
  lemma {:induction false} ConcatAppend(a: seq<string>, b: seq<string>)
    ensures Concat(a + b) == Concat(a) + Concat(b)
    decreases |b|
  {
    if |b| == 0 {
      assert a + b == a;
    } else {
      ConcatAppend(a, b[..|b| - 1]);
      assert (a + b)[..|a + b| - 1] == a + b[..|b| - 1];
    }
  }
}

=== FILE: transcript.dfy ===
/**
  The chat transcript: an ordered sequence of messages, each with a role and a
  text content, in display (and arrival) order.
 */
module Transcript {

  datatype Role = User | Assistant

  datatype Message = Message(role: Role, content: string)

  /** The fixed reply shown in place of an answer when a turn fails. */
  const ErrorText: string := "Sorry, there was an error. Please try again."

  function Last(ms: seq<Message>): Message
    requires |ms| > 0
  {
    ms[|ms| - 1]
  }

  predicate EndsWithAssistant(ms: seq<Message>) {
    |ms| > 0 && Last(ms).role == Assistant
  }

  /** `r` is `ms` with zero or more messages appended. */
  predicate Extends(ms: seq<Message>, r: seq<Message>) {
    |ms| <= |r| && r[..|ms|] == ms
  }

  /** `ms` and `r` agree at every index except possibly the last one of `ms`. */
  predicate SameBeforeLast(ms: seq<Message>, r: seq<Message>) {
    |ms| <= |r| && (|ms| > 0 ==> r[..|ms| - 1] == ms[..|ms| - 1])
  }

  /**
    The one shape of update the chat window applies to the transcript while
    answering: when the last message is an assistant message its content is
    replaced by `overwrite`; otherwise a new assistant message with content
    `pushed` is appended. Either way the transcript ends with an assistant
    message, nothing before the last index changes, and at most one message
    is added.
   */
  function UpsertAssistant(ms: seq<Message>, overwrite: string, pushed: string): (r: seq<Message>)
    ensures EndsWithAssistant(r)
    ensures SameBeforeLast(ms, r)
    ensures EndsWithAssistant(ms) ==> |r| == |ms| && Last(r).content == overwrite
    ensures !EndsWithAssistant(ms) ==> |r| == |ms| + 1 && Extends(ms, r) && Last(r).content == pushed
  {
    if EndsWithAssistant(ms) then ms[..|ms| - 1] + [Message(Assistant, overwrite)]
    else ms + [Message(Assistant, pushed)]
  }

  lemma SameBeforeLastTransitive(a: seq<Message>, b: seq<Message>, c: seq<Message>)
    requires SameBeforeLast(a, b) && SameBeforeLast(b, c)
    ensures SameBeforeLast(a, c)
  {
    if |a| > 0 {
      assert c[..|a| - 1] == c[..|b| - 1][..|a| - 1];
    }
  }

  /**
    Once a transcript has grown past `a`, rewriting its last message leaves
    `a` in place.
   */
  lemma ExtendsThenSameBeforeLast(a: seq<Message>, b: seq<Message>, c: seq<Message>)
    requires Extends(a, b) && |a| < |b| && SameBeforeLast(b, c)
    ensures Extends(a, c)
  {
    assert c[..|a|] == c[..|b| - 1][..|a|];
  }

  lemma ExtendsTransitive(a: seq<Message>, b: seq<Message>, c: seq<Message>)
    requires Extends(a, b) && Extends(b, c)
    ensures Extends(a, c)
  {
    assert c[..|a|] == c[..|b|][..|a|];
  }
}

=== FILE: wrappers.dfy ===
/** The optional-value datatype used where the source has `T | null` or `T | undefined`. */
module Wrappers {

  datatype Option<+T> = None | Some(value: T)
}
